=== FILE: README.md ===
# Hunger detection: a Dafny model of the app's decision logic

The Hunger project asks a person whether a heart-rate model guessed their
hunger state correctly. It scores the answers and suggests a walk or a
healthy food. This project models the parts of it that decide something:

- **Three phone screens.** Each `ContentView` is modelled as an immutable
  state with pure transition functions, kept apart because their agreement
  rules differ. `PairedFlow` is the watch-paired screen in
  `HungerApp/HungerApp/ContentView.swift`. `HungryFlow` is its variant with
  swapped labels in `HungerApp/HungerApp/HungerApp/ContentView.swift`.
  `StandaloneFlow` is the mock-prediction screen in
  `Hunger-ios/Hunger/Hunger/ContentView.swift`. The two paired screens share
  the state and event types (`PhoneScreen`) and the scoring arithmetic (`Scoring`).
- **The offline labelling script `main.py`** (`Resampler`). It keeps the
  heart-rate records inside a fixed window and sorts them. It then walks a
  10-second grid, holds the last reading and labels each point 0 before the
  eating time and 1 from it onwards.
- **The `/predict` route of `model/kp_api/app.py`** (`PredictApi`), with its
  validation ladder, status codes and error texts. It is modelled together
  with the request body and reply parsing of
  `HungerApp/HungerApp/Shared/Services/PredictionAPI.swift`.
- **The two sensor calibrations of `retrieve_data.py`** (`Calibration`).

Random choices become parameters chosen by the caller: an index into the
food list for `randomElement()`, and a value in {0, 1} for
`Int.random(in: 0...1)`. The arrival of a model prediction is an event
carrying its value. The 2-second timer and the watch session are not
modelled. Swift's `Double` and Python's `float` are Dafny `real`, and
timestamps are integer seconds.

Each screen's transition functions are modelled as written. They are not
gated: `handleAnswer` may run while a follow-up is already shown. A separate
`Step` function models the view: an event has an effect only while its
button is on screen, and an open results sheet blocks the screen. `Run`
folds `Step` over an event sequence.

Three facts about the source that the model makes explicit:

- The phone and the route do not speak the same protocol. The phone parses
  an integer `hungry` from the reply
  (`HungerApp/HungerApp/Shared/Services/PredictionAPI.swift:30`). The route
  writes `prediction` (`model/kp_api/app.py:79`), and it requires a `data`
  key (`model/kp_api/app.py:54`) that the phone's body, with keys `hr` and
  `timestamp` (`PredictionAPI.swift:18`), lacks.
  `PredictApi.ClientAndServerDisagree` proves both facts.
- The screens use two agreement rules:
  - `(pred==1 && yes) || (pred==0 && !yes)` in the watch-paired screen
    (`HungerApp/HungerApp/ContentView.swift:142`) and the standalone screen
    (`Hunger-ios/Hunger/Hunger/ContentView.swift:120`);
  - `(pred==1 && yes) || (pred==0 && yes)` in the variant
    (`HungerApp/HungerApp/HungerApp/ContentView.swift:157`), where agreement
    is just "yes" for either prediction.

  `HungryFlow.RulesDisagree` compares the two rules.
- "Yes" to prediction 1 and then "no" to prediction 0 scores 100% on the
  watch-paired screen and 50% on the variant
  (`PairedFlow.MixedAnswersAllAgree`, `HungryFlow.MixedAnswersHalfAgree`).

## Model

| member | source | states |
|---|---|---|
| Scoring.Accuracy | HungerApp/HungerApp/ContentView.swift:143 | the percentage is within 0..100 when correct <= total, is 100 exactly when every answer agreed, and is 0 exactly when none did |
| Scoring.Tally | HungerApp/HungerApp/ContentView.swift:141-143 | one answer adds one to the total, adds one to the correct count exactly when it agreed, and keeps the score consistent (correct <= total, accuracy = correct/total*100) |
| Scoring.TallyExtendsHistory | HungerApp/HungerApp/ContentView.swift:141-144 | the appended chart entry keeps the history numbered 1..total, with every percentage in range and the last one equal to the current accuracy |
| PhoneScreen.InitialInv | HungerApp/HungerApp/ContentView.swift:12-27 | the declared initial state shows only the loading spinner and satisfies the screen invariant |
| PairedFlow.AgreesMeaning | HungerApp/HungerApp/ContentView.swift:142 | an answer agrees exactly when the prediction is 0 or 1 and "yes" was given to 1 or "no" to 0; any other prediction value never agrees |
| PairedFlow.Receive | HungerApp/HungerApp/ContentView.swift:129-133 | a prediction stores its value, hides the spinner and shows the prompt; an open follow-up, its message and suggestion, and all statistics are left as they were |
| PairedFlow.HandleAnswer | HungerApp/HungerApp/ContentView.swift:139-158 | with no prediction nothing changes; otherwise the total grows by one, the correct count grows exactly when the answer agrees, the accuracy and new chart entry follow, a food is picked only for prediction not 1 answered no (and the snack message is shown exactly then), and the prompt gives way to the follow-up with the extra option re-armed |
| PairedFlow.Reset | HungerApp/HungerApp/ContentView.swift:160-166 | Continue forgets the prediction, shows the spinner, hides prompt and follow-up, blanks the suggestion, and keeps statistics and history |
| PairedFlow.AnotherOption | HungerApp/HungerApp/ContentView.swift:92-96 | tapping "Another option" shows the picked food and removes the button; statistics are unchanged |
| PairedFlow.Step | HungerApp/HungerApp/ContentView.swift:68-106 | a press on a button that is not on screen, or that the open results sheet covers, leaves the state unchanged; a prediction is always delivered through the sink, even with the follow-up or the sheet open; after an accepted another-option tap the offer is withdrawn |
| PairedFlow.StepPreservesInv | HungerApp/HungerApp/ContentView.swift:139-158 | every screen event keeps the statistics consistent, the history matching them and the suggestion blank or one of the four foods |
| PairedFlow.RunPreservesInv | HungerApp/HungerApp/ContentView.swift:139-166 | the invariant holds after any sequence of events |
| PairedFlow.MoreSuggestionFlag | HungerApp/HungerApp/ContentView.swift:92-96 | the "already tapped" flag is only cleared by an answer and only set by tapping "Another option" |
| PairedFlow.AnotherOptionAtMostOnce | HungerApp/HungerApp/ContentView.swift:92-96 | between two answers "Another option" takes effect at most once, and not at all once it has been used |
| PairedFlow.PromptAndFollowTogether | HungerApp/HungerApp/ContentView.swift:129-133 | a prediction arriving while the follow-up is open shows the prompt and the follow-up at the same time |
| PairedFlow.MixedAnswersAllAgree | HungerApp/HungerApp/ContentView.swift:142-143 | "yes" to prediction 1 and then "no" to prediction 0 scores 2 of 2, 100% |
| HungryFlow.AgreesMeaning | HungerApp/HungerApp/HungerApp/ContentView.swift:157 | for predictions 0 and 1 an answer agrees exactly when it is "yes"; any other prediction value never agrees |
| HungryFlow.RulesDisagree | HungerApp/HungerApp/HungerApp/ContentView.swift:157 | the two paired screens' rules coincide for prediction 1 and are opposite for prediction 0 |
| HungryFlow.ResetInteractionState | HungerApp/HungerApp/HungerApp/ContentView.swift:143-149 | prompt, follow-up and results sheet are hidden, suggestion and message blanked; prediction, spinner and statistics untouched |
| HungryFlow.Receive | HungerApp/HungerApp/HungerApp/ContentView.swift:133-139 | a prediction first clears the interaction, so afterwards exactly the prompt for the new value is visible, with no suggestion and statistics unchanged |
| HungryFlow.HandleAnswer | HungerApp/HungerApp/HungerApp/ContentView.swift:154-173 | as for the paired screen but with this file's rule; the meal-suggestion message appears exactly for prediction 1 answered yes, and a food is picked only for prediction not 1 answered no |
| HungryFlow.MealPromisedButNotSuggested | HungerApp/HungerApp/HungerApp/ContentView.swift:161-168 | after "yes" to prediction 1 the screen promises meal choices yet shows no food and no "Another option" button |
| HungryFlow.Reset | HungerApp/HungerApp/HungerApp/ContentView.swift:175-181 | Continue forgets the prediction, shows the spinner, hides prompt and follow-up, blanks the suggestion, keeps statistics |
| HungryFlow.AnotherOption | HungerApp/HungerApp/HungerApp/ContentView.swift:92-100 | tapping shows the picked food, one of the ten, and the button stays available |
| HungryFlow.Step | HungerApp/HungerApp/HungerApp/ContentView.swift:73-110 | an event whose button is not on screen, or that the open results sheet covers, leaves the state unchanged; a prediction is always delivered through the sink |
| HungryFlow.StepPreservesInv | HungerApp/HungerApp/HungerApp/ContentView.swift:154-173 | every event keeps the screen invariant, and events other than an answer leave the statistics alone |
| HungryFlow.RunPreservesInv | HungerApp/HungerApp/HungerApp/ContentView.swift:154-181 | the invariant holds after any sequence of events |
| HungryFlow.MixedAnswersHalfAgree | HungerApp/HungerApp/HungerApp/ContentView.swift:157-158 | "yes" to prediction 1 and then "no" to prediction 0 scores 1 of 2, 50% |
| StandaloneFlow.InitialState | Hunger-ios/Hunger/Hunger/ContentView.swift:4-10 | the screen starts with no prediction, the prompt shown, no follow-up and zeroed counters |
| StandaloneFlow.InitialInv | Hunger-ios/Hunger/Hunger/ContentView.swift:4-10 | the initial state satisfies the screen invariant |
| StandaloneFlow.MockPrediction | Hunger-ios/Hunger/Hunger/ContentView.swift:93-99 | the delayed mock stores a coin value as the prediction and changes nothing else |
| StandaloneFlow.HandleResponse | Hunger-ios/Hunger/Hunger/ContentView.swift:117-135 | with no prediction nothing changes; otherwise the counters follow the rule, the accuracy is correct/total*100, the message names a healthy food exactly for prediction not 1 answered no, and the prompt gives way to the follow-up |
| StandaloneFlow.ResetToMain | Hunger-ios/Hunger/Hunger/ContentView.swift:137-142 | Okay draws a new coin prediction, shows the prompt, hides and blanks the follow-up, and keeps the score |
| StandaloneFlow.Step | Hunger-ios/Hunger/Hunger/ContentView.swift:32-112 | an event the view does not offer in the current state leaves it unchanged |
| StandaloneFlow.StepPreservesInv | Hunger-ios/Hunger/Hunger/ContentView.swift:117-142 | exactly one of prompt and follow-up is shown, the follow-up carries a prediction, and the score stays consistent |
| StandaloneFlow.RunCounts | Hunger-ios/Hunger/Hunger/ContentView.swift:120-123 | after any event sequence the counters equal their start plus the number of effective answers and of agreeing ones |
| StandaloneFlow.AccuracyIsAgreementRate | Hunger-ios/Hunger/Hunger/ContentView.swift:123 | from zeroed counters, the displayed accuracy is the percentage of effective answers that agreed, and stays 0 while there are none |
| StandaloneFlow.TwoAgreeingAnswers | Hunger-ios/Hunger/Hunger/ContentView.swift:120-123 | "yes" to prediction 1 and "no" to prediction 0 shows 100% |
| Resampler.FilterHeartRate | main.py:22-30 | at most one reading per record, each inside the closed window |
| Resampler.FilterKeepsExactly | main.py:22-30 | a reading is kept exactly when some heart-rate record inside the window produced it |
| Resampler.Sort | main.py:32 | the result is ordered like Python's tuple order and is a permutation of the input |
| Resampler.SortedPermutationUnique | main.py:32 | two tuple-ordered permutations of the same readings are equal, so the sorted order is fully determined |
| Resampler.LastAtOrBefore | main.py:42-43 | the held reading is at or before the grid time and every later reading is after it |
| Resampler.HeldIffSomeReading | main.py:46-47 | a grid point gets a row exactly when some reading is at or before it |
| Resampler.HeldStaysHeld | main.py:37-47 | once a heart rate is known it stays known at every later grid point |
| Resampler.HeldIsTupleMax | main.py:32-43 | the held reading is the tuple-maximum among readings at or before the grid time (for equal timestamps, the largest value) |
| Resampler.Label | main.py:48 | the label is 0 or 1, and 0 exactly before the eating time |
| Resampler.GridRowsOnGrid | main.py:36-51 | every row time lies on the 10-second grid from the start and within the window |
| Resampler.GridRowsIncreasing | main.py:40-51 | row times strictly increase |
| Resampler.GridRowsHeld | main.py:40-49 | every row carries the held reading and the label for its time |
| Resampler.GridRowsPointwise | main.py:40-51 | a grid point with a held reading has its row; one without has none |
| Resampler.NoGaps | main.py:40-51 | once rows begin, every following grid point in the window has a row |
| Resampler.Resample | main.py:35-51 | the two nested loops produce exactly the reference grid rows, and the index stops just past the last reading at or before the last grid point |
| Resampler.CatchUp | main.py:42-44 | the inner loop consumes exactly the readings at or before the grid time and holds the last consumed value |
| Resampler.LastIsBoundary | main.py:42-44 | where the readings at or before a time end, that index is the held reading |
| Resampler.GridRowsAtMost | main.py:40-51 | a window from t to end yields at most (end - t)/10 + 1 rows, and none when t > end |
| Resampler.ScriptWindow | main.py:13-15 | in the script's window the eating time 12:00:00 is a grid point, 12:50:00 is the last grid point, and at most 451 rows are written |
| Resampler.Export | main.py:21-58 | the file is the header followed by one line per grid row under the user name, and the reported count is the number of data lines |
| Resampler.ExportHoldsTupleMax | main.py:22-49 | every exported heart rate comes from a kept reading at or before the row time that is tuple-maximal among such readings |
| PredictApi.BuildFrame | model/kp_api/app.py:59-61 | a string cannot build a frame; an array of objects gives a column exactly when some object has the key; an array of numbers never has the column |
| PredictApi.DropNa | model/kp_api/app.py:64 | `.dropna().values` of a column is never longer than the column; `DropNaAppend`, `DropNaCells` and `DropNaUnique` pin down its values |
| PredictApi.DropNaKeepsPresent | model/kp_api/app.py:64 | dropping nulls keeps as many values as are present, and a value survives exactly when it is present |
| PredictApi.DropNaAppend | model/kp_api/app.py:64 | dropping nulls distributes over concatenation, so order and multiplicity are kept |
| PredictApi.DropNaCells | model/kp_api/app.py:64 | a present cell becomes its value and a null cell disappears |
| PredictApi.DropNaUnique | model/kp_api/app.py:64 | any function that distributes over concatenation and treats single cells that way equals `.dropna().values` on every column |
| PredictApi.SamplesAreHeartRates | model/kp_api/app.py:59-64 | the samples handed to the feature extractor are the non-null `heart_rate` values of the `data` objects, in array order, with a missing key counting as null |
| PredictApi.ExtractFeatures | model/kp_api/app.py:17-20 | no features exactly when fewer than two samples remain |
| PredictApi.Predict | model/kp_api/app.py:49-82 | a body `get_json` cannot decode gives 500 with that exception's text; a `null` body gives 500 "argument of type 'NoneType' is not iterable"; no `data` key gives 400; an unbuildable frame gives 500 with its message; no column gives 400; fewer than two samples give 400; otherwise the scaler's or classifier's failure gives 500 and success gives 200 with the class; 200 happens exactly with a prediction |
| PredictApi.ChecksComeFirst | model/kp_api/app.py:54-70 | when a check fails, the reply does not depend on the loaded model and is never 200 |
| PredictApi.SuccessMeansChecked | model/kp_api/app.py:73-79 | a 200 reply means every check passed and the class is the classifier's output |
| PredictApi.EmptyDataHasNoColumn | model/kp_api/app.py:59-62 | an empty `data` array is rejected with the missing-column error |
| PredictApi.NullsAreDropped | model/kp_api/app.py:64-70 | one value and one null count as one sample and are rejected as insufficient |
| PredictApi.ReplyJson | model/kp_api/app.py:79-82 | a success reply carries only `prediction`; an error reply only `error` |
| PredictApi.ClientBody | HungerApp/HungerApp/Shared/Services/PredictionAPI.swift:18 | the phone sends exactly the keys `hr` and `timestamp` |
| PredictApi.ParseHungry | HungerApp/HungerApp/Shared/Services/PredictionAPI.swift:27-33 | parsing succeeds exactly when the reply has an integer `hungry` field, and yields it |
| PredictApi.ClientAndServerDisagree | HungerApp/HungerApp/Shared/Services/PredictionAPI.swift:18-31 | the phone's body is always rejected with 400 "Missing 'data' key", and no reply the route can produce parses on the phone |
| Calibration.CalibrateHeartRate | retrieve_data.py:10-14 | None passes through; otherwise bpm * 1023 = raw * 200 |
| Calibration.HeartRateRoundTrip | retrieve_data.py:13 | the heart-rate scaling is invertible in both directions |
| Calibration.HeartRateRange | retrieve_data.py:13 | raw 0 gives 0 bpm, raw 1023 gives 200 bpm, and raw values in between stay in 0..200 |
| Calibration.HeartRateStrictlyIncreasing | retrieve_data.py:13 | a larger raw value gives a larger bpm |
| Calibration.CalibrateGsr | retrieve_data.py:17-22 | None passes through; the result is negative exactly below raw 500 and zero exactly at 500 |
| Calibration.GsrRoundTrip | retrieve_data.py:20-22 | the skin-response scaling is invertible in both directions |
| Calibration.GsrAffine | retrieve_data.py:20-22 | differences of results are 0.05 times differences of raw values |

## Left out

- View bodies, fonts, colours, the banner, the latest-output badge and the results sheet's chart: presentation only. The chart's data, the history, is modelled.
- The commented-out older screen at the end of `HungerApp/HungerApp/ContentView.swift`: it is not compiled.
- `appendToCSV` in the standalone screen: file I/O. `HandleResponse` models everything else in `handleResponse`.
- The identity (`UUID`) of chart entries and `Date()`: neither affects any decision.
- `WCSessionManager`, the watch app and `WatchHeartSender`: messaging plumbing. A prediction's arrival is the `Predicted`/`Loaded` event, and a reply that fails to parse is an event that never happens.
- `URLSession` transport and `HungerAppMain.swift`: networking and app wiring. Only the request body and reply parsing are modelled.
- The 2-second `asyncAfter` delay: timing. `MockPrediction` is the timer firing.
- The `?? "a healthy snack"` fallback: the food list is a non-empty constant, so `randomElement()` never returns nil. The pick is an index below the list's length.
- Swift `Int` overflow of the counters: counters are `nat`; a trap after 2^63 answers is not modelled.
- `%.1f` formatting of the accuracy: text output. The accuracy itself is exact over the reals.
- XML parsing, `strptime`/`strftime` and time zones in `main.py`: records are given as (type, seconds, value), and the window constants are seconds since midnight of 2025-04-01.
- CSV writing and the two `print` calls in `main.py`: the lines are modelled as `CsvLine` values, and the count printed is `Export`'s `reported`.
- `NaN` values in `main.py`'s sort and Python float rounding: reals have neither.
- The eighteen statistics, the scaler and the voting classifier of `app.py`, and `model/kp_model.py`: they are numerical code and a trained model. `Model` holds them as opaque functions, and the scaler and classifier may raise.
- Flask, `joblib` loading and `debug`/`port` settings: server plumbing.
- PredictApi.Predict: the text of the exception `get_json` raises on an undecodable body is a parameter (`Undecodable(reason)`), because it depends on the Flask version and the request. Before Flask 2.1 a body whose Content-Type was not JSON made `get_json` return `None`, which is the `Null` case; a malformed JSON body raised in every version.
- Keys of a `data` object other than `heart_rate`, such as the string `timestamp` that `model/kp_api/test_client.py` sends: a `Record` holds only numbers or nulls, and the route reads only the `heart_rate` column, so the other keys cannot change any reply.
- A JSON body that is an array or a scalar; a `data` value that is an object, a number, a boolean, `null` (`pd.DataFrame(None)` is an empty frame, so `data: null` gets 400 "missing 'heart_rate' field"), an array of arrays or an array of strings; and a `heart_rate` that is not a number or null: `Value` covers arrays of objects, arrays of numbers and strings.
- `handler`, `save_data` and the Bluetooth loop of `retrieve_data.py`: device I/O. Only the two calibration functions are modelled.
- `model/kp_api/test_client.py`: a script that sends one request.

=== FILE: Calibration.dfy ===
/**
 * The two sensor calibrations of retrieve_data.py, over exact reals.
 * A missing channel (`None`) passes through; otherwise each is an affine map
 * of the raw ADC reading.
 */
module Calibration {
  import opened Common

  const AdcMax: real := 1023.0
  const BpmMax: real := 200.0
  const GsrOffset: real := 500.0
  const GsrScale: real := 0.05

  /** `calibrate_heart_rate`: `raw / 1023 * 200`. */
  function CalibrateHeartRate(raw: Option<real>): (bpm: Option<real>)
    ensures bpm.None? <==> raw.None?
    ensures raw.Some? ==> bpm.value * AdcMax == raw.value * BpmMax
  {
    match raw
    case None => None
    case Some(r) => Some(r / AdcMax * BpmMax)
  }

  /** The reading that calibrates to a given heart rate. */
  function RawForBpm(bpm: real): real
  {
    bpm / BpmMax * AdcMax
  }

  /** The calibration is invertible: every heart rate comes from exactly one reading. */
  lemma HeartRateRoundTrip(bpm: real, raw: real)
    ensures CalibrateHeartRate(Some(RawForBpm(bpm))) == Some(bpm)
    ensures RawForBpm(CalibrateHeartRate(Some(raw)).value) == raw
  {
  }

  /** 0 maps to 0, full scale maps to 200, and the ADC range maps into [0, 200]. */
  lemma HeartRateRange(raw: real)
    ensures CalibrateHeartRate(Some(0.0)) == Some(0.0)
    ensures CalibrateHeartRate(Some(AdcMax)) == Some(BpmMax)
    ensures 0.0 <= raw <= AdcMax ==> 0.0 <= CalibrateHeartRate(Some(raw)).value <= BpmMax
  {
  }

  lemma HeartRateStrictlyIncreasing(a: real, b: real)
    requires a < b
    ensures CalibrateHeartRate(Some(a)).value < CalibrateHeartRate(Some(b)).value
  {
  }

  /** `calibrate_gsr`: `(raw - 500) * 0.05`. */
  function CalibrateGsr(raw: Option<real>): (us: Option<real>)
    ensures us.None? <==> raw.None?
    ensures raw.Some? ==> (us.value < 0.0 <==> raw.value < GsrOffset)
    ensures raw.Some? ==> (us.value == 0.0 <==> raw.value == GsrOffset)
  {
    match raw
    case None => None
    case Some(r) => Some((r - GsrOffset) * GsrScale)
  }

  /** The reading that calibrates to a given conductance. */
  function RawForGsr(us: real): real
  {
    us / GsrScale + GsrOffset
  }

  lemma GsrRoundTrip(us: real, raw: real)
    ensures CalibrateGsr(Some(RawForGsr(us))) == Some(us)
    ensures RawForGsr(CalibrateGsr(Some(raw)).value) == raw
  {
  }

  /** Output differences are 0.05 times input differences. */
  lemma GsrAffine(a: real, b: real)
    ensures CalibrateGsr(Some(b)).value - CalibrateGsr(Some(a)).value == GsrScale * (b - a)
  {
  }
}

=== FILE: Common.dfy ===
/** Small value wrappers shared by every module of the model. */
module Common {

  /** Swift's `Int?` / Python's `None`-or-value. */
  datatype Option<+T> = None | Some(value: T)

  /** A computation that either yields a value or raises an exception with a message. */
  datatype Result<+T> = Ok(value: T) | Raised(message: string)
}

=== FILE: HungryFlow.dfy ===
/**
 * The phone screen of HungerApp/HungerApp/HungerApp/ContentView.swift, paired with the watch.
 * In this file a prediction of 1 means "hungry" and 0 means "not hungry", the
 * prompt asks "Is this correct?" for both predictions, and an answer agrees
 * with the model exactly when the user says yes. A new prediction first clears
 * the previous interaction, and "Another option" can be pressed any number of times.
 * `foods.randomElement()` is a caller-chosen index into `Foods`.
 */
module HungryFlow {
  import opened Common
  import opened Scoring
  import opened PhoneScreen
  import PairedFlow

  const Foods: seq<Food> := [
    Food("Avocado Toast 🥑", "Rich in healthy fats and fiber, good for heart and digestion."),
    Food("Greek Yogurt with Berries 🍓", "High in protein and antioxidants for muscle repair."),
    Food("Grilled Chicken Salad 🥗", "Packed with lean protein and leafy greens for recovery."),
    Food("Hummus and Veggie Wrap 🌯", "A balanced combo of fiber and plant protein."),
    Food("Oatmeal with Nuts and Banana 🍌", "Great source of energy and potassium."),
    Food("Tofu Stir Fry 🍜", "High in plant protein, great for muscle and bones."),
    Food("Fruit Smoothie 🥤", "Hydrating and rich in vitamins A, C and natural sugars."),
    Food("Hard-boiled Eggs 🥚", "Loaded with high-quality protein and vitamin D."),
    Food("Cottage Cheese with Pineapple 🍍", "Good mix of casein protein and vitamin C."),
    Food("Edamame 🌱", "High in protein and iron—great pre/post workout snack.")
  ]

  const MealMsg: string := "✅ Let me suggest healthy meal choices!"
  const WalkDigestMsg: string := "❌ Thanks for letting me know! \n How about a short walk to help your digestion?"
  const GreatWalkMsg: string := "✅ Great. Take a short walk to help your digestion and awaken your brain"
  const SuggestMealMsg: string := "❌ Thanks for letting me know! \n Let me suggest healthy meal choices."

  /** This file's agreement rule. */
  predicate Agrees(pred: int, yes: bool)
  {
    (pred == 1 && yes) || (pred == 0 && yes)
  }

  /** For a prediction in {0, 1} an answer agrees exactly when it is "yes";
      a prediction outside {0, 1} never agrees. */
  lemma AgreesMeaning(pred: int, yes: bool)
    ensures (pred == 0 || pred == 1) ==> (Agrees(pred, yes) <==> yes)
    ensures pred != 0 && pred != 1 ==> !Agrees(pred, yes)
  {
  }

  /** The two watch-paired files disagree: they score a prediction of 1 the
      same way, and every answer to a prediction of 0 the opposite way. */
  lemma RulesDisagree(pred: int, yes: bool)
    ensures pred == 1 ==> (Agrees(pred, yes) <==> PairedFlow.Agrees(pred, yes))
    ensures pred == 0 ==> (Agrees(pred, yes) <==> !PairedFlow.Agrees(pred, yes))
  {
  }

  /** `resetInteractionState()`: hide prompt, follow-up and results, blank the
      suggestion and message; prediction and statistics untouched. */
  function ResetInteractionState(s: State): (r: State)
    ensures !r.showPrompt && !r.showFollow && !r.showResults
    ensures r.suggestion == NoFood && r.followMsg == ""
    ensures SameStatistics(s, r) && r.modelOutput == s.modelOutput && r.showLoading == s.showLoading
  {
    s.(showPrompt := false, showFollow := false, showResults := false,
       suggestion := NoFood, followMsg := "")
  }

  /** The prediction sink: clear the interaction, then store the value and show
      the prompt. Afterwards the prompt is the only visible block. */
  function Receive(s: State, value: int): (r: State)
    ensures r.modelOutput == Some(value)
    ensures r.showPrompt && !r.showLoading && !r.showFollow && !r.showResults
    ensures r.suggestion == NoFood && r.followMsg == ""
    ensures SameStatistics(s, r)
  {
    ResetInteractionState(s).(modelOutput := Some(value), showLoading := false, showPrompt := true)
  }

  /** `handleAnswer(yes)`. */
  function HandleAnswer(s: State, yes: bool, pick: nat): (r: State)
    requires pick < |Foods|
    ensures s.modelOutput.None? ==> r == s
    ensures s.modelOutput.Some? ==>
      var pred := s.modelOutput.value;
      && r.score.total == s.score.total + 1
      && (r.score.correct == s.score.correct + 1 <==> Agrees(pred, yes))
      && (r.score.correct == s.score.correct + 1 || r.score.correct == s.score.correct)
      && (s.score.correct <= s.score.total ==> r.score.correct <= r.score.total)
      && r.score.accuracy == Accuracy(r.score.correct, r.score.total)
      && r.history == s.history + [AccuracyEntry(r.score.total, r.score.accuracy)]
      && (pred != 1 && !yes ==> r.suggestion == Foods[pick])
      && (r.suggestion != s.suggestion ==> pred != 1 && !yes)
      && (r.followMsg == MealMsg <==> pred == 1 && yes)
      && !r.showPrompt && r.showFollow && !r.showMoreSuggestion
      && r.modelOutput == s.modelOutput && r.showLoading == s.showLoading && r.showResults == s.showResults
  {
    match s.modelOutput
    case None => s
    case Some(pred) =>
      var score := Tally(s.score, Agrees(pred, yes));
      var msg :=
        if pred == 1 then (if yes then MealMsg else WalkDigestMsg)
        else (if yes then GreatWalkMsg else SuggestMealMsg);
      var suggestion := if pred != 1 && !yes then Foods[pick] else s.suggestion;
      s.(score := score,
         history := s.history + [AccuracyEntry(score.total, score.accuracy)],
         followMsg := msg,
         suggestion := suggestion,
         showPrompt := false,
         showFollow := true,
         showMoreSuggestion := false)
  }

  /** A confirmed "hungry" (prediction 1, answer yes) promises meal suggestions
      but shows none: the sink blanked the suggestion and this branch sets none,
      so neither a food nor the "Another option" button appears. */
  lemma MealPromisedButNotSuggested(s: State, pick: nat)
    requires pick < |Foods|
    ensures var t := HandleAnswer(Receive(s, 1), true, pick);
      t.followMsg == MealMsg && t.suggestion == NoFood && !AnotherOptionOffered(t)
  {
  }

  /** `reset()`, run by Continue: back to waiting, statistics kept. */
  function Reset(s: State): (r: State)
    ensures r.modelOutput.None? && r.showLoading && !r.showPrompt && !r.showFollow
    ensures r.suggestion == NoFood
    ensures SameStatistics(s, r)
    ensures r.showResults == s.showResults
  {
    s.(modelOutput := None, showLoading := true, showPrompt := false, showFollow := false,
       suggestion := NoFood)
  }

  /** Whether the "Another option" button is on screen: whenever a food is shown. */
  predicate AnotherOptionOffered(s: State)
  {
    s.showFollow && s.suggestion.name != ""
  }

  /** The "Another option" action: always a food from the list, and the button stays. */
  function AnotherOption(s: State, pick: nat): (r: State)
    requires pick < |Foods|
    ensures r.suggestion == Foods[pick]
    ensures AnotherOptionOffered(s) ==> AnotherOptionOffered(r)
    ensures SameStatistics(s, r) && r.showFollow == s.showFollow && r.modelOutput == s.modelOutput
  {
    s.(suggestion := Foods[pick])
  }

  /** A button can only be pressed while it is rendered; the results sheet is
      modal. A prediction can arrive at any time. */
  predicate Enabled(s: State, e: Event)
  {
    match e
    case Predicted(_) => true
    case Answered(_, _) => !s.showResults && s.showPrompt && s.modelOutput.Some?
    case AnotherOptionTapped(_) => !s.showResults && AnotherOptionOffered(s)
    case SeeResults => !s.showResults && s.showFollow
    case CloseResults => s.showResults
    case Continue => !s.showResults && s.showFollow
  }

  function Step(s: State, e: Event): (r: State)
    requires WellFormed(e, Foods)
    ensures !Enabled(s, e) ==> r == s
    ensures e.Predicted? ==> r == Receive(s, e.value)
  {
    if !Enabled(s, e) then s
    else match e
      case Predicted(v) => Receive(s, v)
      case Answered(yes, pick) => HandleAnswer(s, yes, pick)
      case AnotherOptionTapped(pick) => AnotherOption(s, pick)
      case SeeResults => s.(showResults := true)
      case CloseResults => s.(showResults := false)
      case Continue => Reset(s)
  }

  function Run(s: State, es: seq<Event>): State
    requires forall i :: 0 <= i < |es| ==> WellFormed(es[i], Foods)
    decreases |es|
  {
    if |es| == 0 then s else Run(Step(s, es[0]), es[1..])
  }

  /** Only an answer changes the statistics, and it keeps the invariant. */
  lemma StepPreservesInv(s: State, e: Event)
    requires Inv(s, Foods) && WellFormed(e, Foods)
    ensures Inv(Step(s, e), Foods)
    ensures !e.Answered? ==> SameStatistics(s, Step(s, e))
  {
    if Enabled(s, e) && e.Answered? && s.modelOutput.Some? {
      TallyExtendsHistory(s.history, s.score, Agrees(s.modelOutput.value, e.yes));
    }
  }

  /** After any sequence of events: correct <= total, |history| == total,
      attempts numbered 1..n, accuracy == correct*100/total. */
  lemma {:induction false} RunPreservesInv(s: State, es: seq<Event>)
    requires Inv(s, Foods)
    requires forall i :: 0 <= i < |es| ==> WellFormed(es[i], Foods)
    ensures Inv(Run(s, es), Foods)
    decreases |es|
  {
    if |es| > 0 {
      StepPreservesInv(s, es[0]);
      RunPreservesInv(Step(s, es[0]), es[1..]);
    }
  }


  /** Under this file's rule the "no" to prediction 0 is a miss: 50%, where
      PairedFlow.MixedAnswersAllAgree scores the same answers 100%. */
  lemma MixedAnswersHalfAgree()
    ensures Run(Initial, MixedAnswers).score == Score(2, 1, 50.0)
  {
    var s1 := Step(Initial, Predicted(1));
    var s2 := Step(s1, Answered(true, 0));
    assert s2.score == Score(1, 1, 100.0);
    var s3 := Step(s2, Continue);
    var s4 := Step(s3, Predicted(0));
    assert s4.score == s2.score;
    var s5 := Step(s4, Answered(false, 0));
    assert s5.score == Score(2, 1, 50.0);
    assert Run(Initial, MixedAnswers) == Run(s5, []);
  }
}

=== FILE: PairedFlow.dfy ===
/**
 * The phone screen of HungerApp/HungerApp/ContentView.swift, paired with the watch.
 * In this file a prediction of 0 means "hungry" and 1 means "not hungry", the
 * prompt asks whether the user has eaten, and an answer agrees with the model
 * when "yes" goes with 1 and "no" goes with 0.
 * `foods.randomElement()` is a caller-chosen index into `Foods`.
 */
module PairedFlow {
  import opened Common
  import opened Scoring
  import opened PhoneScreen

  const Foods: seq<Food> := [
    Food("Avocado Toast 🥑", "Healthy fats & fiber."),
    Food("Greek Yogurt 🍓", "Protein & antioxidants."),
    Food("Chicken Salad 🥗", "Lean protein & greens."),
    Food("Oatmeal 🍌", "Slow carbs + potassium.")
  ]

  const WalkMsg: string := "✅ Great! Let's take a walk."
  const NotedMsg: string := "📝 Thanks for letting us know!"
  const MoveMsg: string := "🚶 Maybe move a bit."
  const SnackMsg: string := "👨‍🍳 Let me suggest a snack!"

  /** This file's agreement rule. */
  predicate Agrees(pred: int, yes: bool)
  {
    (pred == 1 && yes) || (pred == 0 && !yes)
  }

  /** The rule is "yes iff the prediction is 1", and a prediction outside {0, 1} never agrees. */
  lemma AgreesMeaning(pred: int, yes: bool)
    ensures Agrees(pred, yes) <==> (pred == 0 || pred == 1) && (yes <==> pred == 1)
    ensures pred != 0 && pred != 1 ==> !Agrees(pred, yes)
  {
  }

  /** The prediction sink: store the value, stop the spinner, show the prompt.
      An open follow-up is left open. */
  function Receive(s: State, value: int): (r: State)
    ensures r.modelOutput == Some(value) && !r.showLoading && r.showPrompt
    ensures r.showFollow == s.showFollow && r.suggestion == s.suggestion && r.followMsg == s.followMsg
    ensures SameStatistics(s, r) && r.showMoreSuggestion == s.showMoreSuggestion
  {
    s.(modelOutput := Some(value), showLoading := false, showPrompt := true)
  }

  /** `handleAnswer(yes)`. */
  function HandleAnswer(s: State, yes: bool, pick: nat): (r: State)
    requires pick < |Foods|
    ensures s.modelOutput.None? ==> r == s
    ensures s.modelOutput.Some? ==>
      var pred := s.modelOutput.value;
      && r.score.total == s.score.total + 1
      && (r.score.correct == s.score.correct + 1 <==> Agrees(pred, yes))
      && (r.score.correct == s.score.correct + 1 || r.score.correct == s.score.correct)
      && (s.score.correct <= s.score.total ==> r.score.correct <= r.score.total)
      && r.score.accuracy == Accuracy(r.score.correct, r.score.total)
      && r.history == s.history + [AccuracyEntry(r.score.total, r.score.accuracy)]
      && (pred != 1 && !yes ==> r.suggestion == Foods[pick])
      && (r.suggestion != s.suggestion ==> pred != 1 && !yes)
      && (r.followMsg == SnackMsg <==> pred != 1 && !yes)
      && !r.showPrompt && r.showFollow && !r.showMoreSuggestion
      && r.modelOutput == s.modelOutput && r.showLoading == s.showLoading && r.showResults == s.showResults
  {
    match s.modelOutput
    case None => s
    case Some(pred) =>
      var score := Tally(s.score, Agrees(pred, yes));
      var msg :=
        if pred == 1 then (if yes then WalkMsg else NotedMsg)
        else (if yes then MoveMsg else SnackMsg);
      var suggestion := if pred != 1 && !yes then Foods[pick] else s.suggestion;
      s.(score := score,
         history := s.history + [AccuracyEntry(score.total, score.accuracy)],
         followMsg := msg,
         suggestion := suggestion,
         showPrompt := false,
         showFollow := true,
         showMoreSuggestion := false)
  }

  /** `reset()`, run by Continue: back to waiting, statistics kept. */
  function Reset(s: State): (r: State)
    ensures r.modelOutput.None? && r.showLoading && !r.showPrompt && !r.showFollow
    ensures r.suggestion == NoFood
    ensures SameStatistics(s, r)
    ensures r.showResults == s.showResults && r.showMoreSuggestion == s.showMoreSuggestion
  {
    s.(modelOutput := None, showLoading := true, showPrompt := false, showFollow := false,
       suggestion := NoFood)
  }

  /** Whether the one-shot "Another option" button is on screen. */
  predicate AnotherOptionOffered(s: State)
  {
    s.showFollow && s.suggestion.name != "" && !s.showMoreSuggestion
  }

  /** The "Another option" action: a new food, and the button disappears. */
  function AnotherOption(s: State, pick: nat): (r: State)
    requires pick < |Foods|
    ensures r.suggestion == Foods[pick] && r.showMoreSuggestion
    ensures !AnotherOptionOffered(r)
    ensures SameStatistics(s, r) && r.showFollow == s.showFollow && r.modelOutput == s.modelOutput
  {
    s.(suggestion := Foods[pick], showMoreSuggestion := true)
  }

  /** A button can only be pressed while it is rendered; the results sheet is
      modal, so while it is up only its Close button can be pressed. A prediction
      can arrive at any time. */
  predicate Enabled(s: State, e: Event)
  {
    match e
    case Predicted(_) => true
    case Answered(_, _) => !s.showResults && s.showPrompt && s.modelOutput.Some?
    case AnotherOptionTapped(_) => !s.showResults && AnotherOptionOffered(s)
    case SeeResults => !s.showResults && s.showFollow
    case CloseResults => s.showResults
    case Continue => !s.showResults && s.showFollow
  }

  function Step(s: State, e: Event): (r: State)
    requires WellFormed(e, Foods)
    ensures !Enabled(s, e) ==> r == s
    ensures e.Predicted? ==> r == Receive(s, e.value)
    ensures Enabled(s, e) && e.AnotherOptionTapped? ==> !AnotherOptionOffered(r)
  {
    if !Enabled(s, e) then s
    else match e
      case Predicted(v) => Receive(s, v)
      case Answered(yes, pick) => HandleAnswer(s, yes, pick)
      case AnotherOptionTapped(pick) => AnotherOption(s, pick)
      case SeeResults => s.(showResults := true)
      case CloseResults => s.(showResults := false)
      case Continue => Reset(s)
  }

  function Run(s: State, es: seq<Event>): State
    requires forall i :: 0 <= i < |es| ==> WellFormed(es[i], Foods)
    decreases |es|
  {
    if |es| == 0 then s else Run(Step(s, es[0]), es[1..])
  }

  /** Every event keeps the score and history invariant. */
  lemma StepPreservesInv(s: State, e: Event)
    requires Inv(s, Foods) && WellFormed(e, Foods)
    ensures Inv(Step(s, e), Foods)
  {
    if Enabled(s, e) && e.Answered? && s.modelOutput.Some? {
      TallyExtendsHistory(s.history, s.score, Agrees(s.modelOutput.value, e.yes));
    }
  }

  /** From the initial screen, after any sequence of events: correct <= total,
      |history| == total, attempts numbered 1..n, accuracy == correct*100/total. */
  lemma {:induction false} RunPreservesInv(s: State, es: seq<Event>)
    requires Inv(s, Foods)
    requires forall i :: 0 <= i < |es| ==> WellFormed(es[i], Foods)
    ensures Inv(Run(s, es), Foods)
    decreases |es|
  {
    if |es| > 0 {
      StepPreservesInv(s, es[0]);
      RunPreservesInv(Step(s, es[0]), es[1..]);
    }
  }

  /** Only an answer clears `showMoreSuggestion`, and only "Another option" sets it. */
  lemma MoreSuggestionFlag(s: State, e: Event)
    requires WellFormed(e, Foods)
    ensures s.showMoreSuggestion && !Step(s, e).showMoreSuggestion ==> e.Answered?
    ensures !s.showMoreSuggestion && Step(s, e).showMoreSuggestion ==> e.AnotherOptionTapped?
  {
  }

  /** The number of "Another option" presses that take effect along a run. */
  function OptionTaps(s: State, es: seq<Event>): nat
    requires forall i :: 0 <= i < |es| ==> WellFormed(es[i], Foods)
    decreases |es|
  {
    if |es| == 0 then 0
    else (if es[0].AnotherOptionTapped? && Enabled(s, es[0]) then 1 else 0)
         + OptionTaps(Step(s, es[0]), es[1..])
  }

  /** Between two answers "Another option" takes effect at most once, and not
      at all once it has been used. */
  lemma {:induction false} AnotherOptionAtMostOnce(s: State, es: seq<Event>)
    requires forall i :: 0 <= i < |es| ==> WellFormed(es[i], Foods)
    requires forall i :: 0 <= i < |es| ==> !es[i].Answered?
    ensures OptionTaps(s, es) <= 1
    ensures s.showMoreSuggestion ==> OptionTaps(s, es) == 0
    decreases |es|
  {
    if |es| > 0 {
      var t := Step(s, es[0]);
      AnotherOptionAtMostOnce(t, es[1..]);
      if es[0].AnotherOptionTapped? && Enabled(s, es[0]) {
        assert t.showMoreSuggestion;
      } else {
        MoreSuggestionFlag(s, es[0]);
      }
    }
  }

  /** A prediction arriving during a follow-up shows the prompt while the follow-up stays open. */
  lemma PromptAndFollowTogether()
    ensures var s := Run(Initial, [Predicted(0), Answered(true, 0), Predicted(1)]);
      s.showPrompt && s.showFollow
  {
    var s1 := Step(Initial, Predicted(0));
    var s2 := Step(s1, Answered(true, 0));
    assert Run(Initial, [Predicted(0), Answered(true, 0), Predicted(1)])
        == Run(s2, [Predicted(1)]);
  }


  /** Under this file's rule both answers agree: 100%. */
  lemma MixedAnswersAllAgree()
    ensures Run(Initial, MixedAnswers).score == Score(2, 2, 100.0)
  {
    var s1 := Step(Initial, Predicted(1));
    var s2 := Step(s1, Answered(true, 0));
    assert s2.score == Score(1, 1, 100.0);
    var s3 := Step(s2, Continue);
    var s4 := Step(s3, Predicted(0));
    assert s4.score == s2.score;
    var s5 := Step(s4, Answered(false, 0));
    assert s5.score == Score(2, 2, 100.0);
    assert Run(Initial, MixedAnswers) == Run(s5, []);
  }
}

=== FILE: PhoneScreen.dfy ===
/**
 * The screen state shared by the two watch-paired phone screens
 * (HungerApp/HungerApp/ContentView.swift and HungerApp/HungerApp/HungerApp/ContentView.swift):
 * both declare the same `@State` fields with the same initial values.
 * The SwiftUI view bodies only read this record; the modules PairedFlow and
 * HungryFlow give each file's transitions.
 */
module PhoneScreen {
  import opened Common
  import opened Scoring

  /** `FoodSuggestion(name:tip:)`. */
  datatype Food = Food(name: string, tip: string)

  /** The blank suggestion `FoodSuggestion(name:"", tip:"")`: no food is shown. */
  const NoFood: Food := Food("", "")

  datatype State = State(
    modelOutput: Option<int>,
    showPrompt: bool,
    showFollow: bool,
    showResults: bool,
    followMsg: string,
    showLoading: bool,
    score: Score,
    history: seq<AccuracyEntry>,
    suggestion: Food,
    showMoreSuggestion: bool)

  /** The declared initial values: waiting for a prediction, nothing answered yet. */
  const Initial: State :=
    State(None, false, false, false, "", true, Zero, [], NoFood, false)

  /** The statistics shown by the results sheet are consistent, and the
      suggestion is either blank or one of the screen's foods. */
  predicate Inv(s: State, foods: seq<Food>)
  {
    && Consistent(s.score)
    && HistoryMatches(s.history, s.score)
    && (s.suggestion == NoFood || s.suggestion in foods)
  }

  lemma InitialInv(foods: seq<Food>)
    ensures Inv(Initial, foods)
    ensures Initial.showLoading && !Initial.showPrompt && !Initial.showFollow
  {
  }

  /** The counters, accuracy and history are the same in both states. */
  predicate SameStatistics(s: State, t: State)
  {
    s.score == t.score && s.history == t.history
  }

  /** What can happen to a watch-paired screen: a prediction arrives, or the
      user presses a button. */
  datatype Event =
    | Predicted(value: int)
    | Answered(yes: bool, pick: nat)
    | AnotherOptionTapped(pick: nat)
    | SeeResults
    | CloseResults
    | Continue

  /** Random picks are indices into the screen's food list. */
  predicate WellFormed(e: Event, foods: seq<Food>)
  {
    match e
    case Answered(_, pick) => pick < |foods|
    case AnotherOptionTapped(pick) => pick < |foods|
    case _ => true
  }

  /** Prediction 1 answered yes, then prediction 0 answered no. */
  const MixedAnswers: seq<Event> := [Predicted(1), Answered(true, 0), Continue, Predicted(0), Answered(false, 0)]
}

=== FILE: PredictApi.dfy ===
/**
 * The `/predict` route of model/kp_api/app.py and the phone client that calls
 * it (HungerApp/HungerApp/Shared/Services/PredictionAPI.swift).
 * The route runs a fixed ladder of checks on the JSON body and only then hands
 * the heart rates to the feature extractor, the scaler and the classifier,
 * which stay uninterpreted. Any exception raised on the way becomes a 500.
 */
module PredictApi {
  import opened Common

  /** One element of the `data` array: a JSON object, with `null` as `None`. */
  type Record = map<string, Option<real>>

  /** The JSON values the model distinguishes for the `data` field: an array of
      objects, an array of numbers, or a string. */
  datatype Value = Records(rows: seq<Record>) | Numbers(xs: seq<real>) | Text(s: string)

  /** A JSON object body. */
  type Body = map<string, Value>

  /** What `request.get_json()` yields: it raises on a body it cannot decode
      (with a message the model leaves open), returns `None` for a `null` body,
      or returns the decoded object. */
  datatype Payload = Undecodable(reason: string) | Null | Object(body: Body)

  /** The JSON object a response carries. */
  datatype Reply = Prediction(prediction: int) | Error(error: string)

  datatype Response = Response(status: int, reply: Reply)

  const MissingData: string := "Missing 'data' key"
  const MissingHeartRate: string := "missing 'heart_rate' field"
  const InsufficientData: string := "Insufficient heart rate data"
  /** What `"data" in None` raises for a `null` body. */
  const NoneNotIterable: string := "argument of type 'NoneType' is not iterable"
  /** What `pd.DataFrame` raises for a bare string. */
  const BadConstructor: string := "DataFrame constructor not properly called!"

  /** The loaded model: the eighteen statistics of a series, the scaler and the
      classifier. All three are opaque; the last two may raise. */
  datatype Model = Model(
    stats: seq<real> -> seq<real>,
    scale: seq<real> -> Result<seq<real>>,
    classify: seq<real> -> Result<int>)

  /** The part of the data frame the route looks at: whether it has a
      `heart_rate` column, and that column, with `NaN` as `None`. */
  datatype Frame = Frame(hasHeartRate: bool, heartRate: seq<Option<real>>)

  /** Whether some object of the array supplies `heart_rate` (the frame's columns are the union of the keys). */
  predicate SuppliesHeartRate(rows: seq<Record>)
  {
    exists i | 0 <= i < |rows| :: "heart_rate" in rows[i]
  }

  /** The `heart_rate` cell of one object: `NaN` (`None`) when the key is absent. */
  function Cell(row: Record): Option<real>
  {
    if "heart_rate" in row then row["heart_rate"] else None
  }

  /** The `heart_rate` column of a frame built from an array of objects. */
  function Column(rows: seq<Record>): seq<Option<real>>
  {
    seq(|rows|, i requires 0 <= i < |rows| => Cell(rows[i]))
  }

  /** `pd.DataFrame(input_data["data"])`. */
  function BuildFrame(v: Value): (r: Result<Frame>)
    ensures v.Text? <==> r.Raised?
    ensures v.Records? ==> r.Ok? && (r.value.hasHeartRate <==> SuppliesHeartRate(v.rows))
    ensures v.Records? ==> |r.value.heartRate| == |v.rows|
    ensures v.Numbers? ==> r.Ok? && !r.value.hasHeartRate
  {
    match v
    case Records(rows) => Ok(Frame(SuppliesHeartRate(rows), Column(rows)))
    case Numbers(_) => Ok(Frame(false, []))
    case Text(_) => Raised(BadConstructor)
  }

  /** `.dropna().values`: the present values, in order. */
  function DropNa(col: seq<Option<real>>): (r: seq<real>)
    ensures |r| <= |col|
    decreases |col|
  {
    if |col| == 0 then []
    else (if col[0].Some? then [col[0].value] else []) + DropNa(col[1..])
  }

  /** The number of present values of a column. */
  function Present(col: seq<Option<real>>): nat
    decreases |col|
  {
    if |col| == 0 then 0 else (if col[0].Some? then 1 else 0) + Present(col[1..])
  }

  /** Dropping nulls keeps as many values as are present, and exactly the present ones. */
  lemma {:induction false} DropNaKeepsPresent(col: seq<Option<real>>)
    ensures |DropNa(col)| == Present(col)
    ensures forall v :: v in DropNa(col) <==> Some(v) in col
    decreases |col|
  {
    if |col| > 0 {
      DropNaKeepsPresent(col[1..]);
      assert col == [col[0]] + col[1..];
    }
  }

  /** Dropping nulls distributes over concatenation, so order and multiplicity are kept. */
  lemma {:induction false} DropNaAppend(a: seq<Option<real>>, b: seq<Option<real>>)
    ensures DropNa(a + b) == DropNa(a) + DropNa(b)
    decreases |a|
  {
    if |a| > 0 {
      assert (a + b)[1..] == a[1..] + b;
      DropNaAppend(a[1..], b);
    } else {
      assert a + b == b;
    }
  }

  /** A present cell becomes its value and a null cell disappears. */
  lemma DropNaCells(v: real)
    ensures DropNa([Some(v)]) == [v]
    ensures DropNa([None]) == []
  {
    assert DropNa([Some(v)]) == [v] + DropNa([]);
    assert DropNa([None]) == [] + DropNa([]);
  }

  /** The two laws above determine `DropNa`: any function obeying them agrees with it. */
  lemma {:induction false} DropNaUnique(f: seq<Option<real>> -> seq<real>, col: seq<Option<real>>)
    requires forall a, b :: f(a + b) == f(a) + f(b)
    requires forall v :: f([Some(v)]) == [v]
    requires f([None]) == []
    ensures f(col) == DropNa(col)
    decreases |col|
  {
    var empty: seq<Option<real>> := [];
    assert f([]) == [] by {
      assert empty + empty == empty;
      assert f(empty + empty) == f(empty) + f(empty);
    }
    if |col| == 0 {
      assert col == [];
    } else {
      assert col == [col[0]] + col[1..];
      assert f(col) == f([col[0]]) + f(col[1..]);
      DropNaUnique(f, col[1..]);
      DropNaAppend([col[0]], col[1..]);
      match col[0]
      case Some(v) => DropNaCells(v);
      case None => DropNaCells(0.0);
    }
  }

  /** Independent account of the samples: the non-null `heart_rate` values of
      the objects, in array order. */
  function HeartRates(rows: seq<Record>): seq<real>
    decreases |rows|
  {
    if |rows| == 0 then []
    else if "heart_rate" in rows[0] && rows[0]["heart_rate"].Some? then [rows[0]["heart_rate"].value] + HeartRates(rows[1..])
    else HeartRates(rows[1..])
  }

  /** The frame's dropped column is exactly `HeartRates`. */
  lemma {:induction false} SamplesAreHeartRates(rows: seq<Record>)
    ensures Samples(BuildFrame(Records(rows)).value) == HeartRates(rows)
    decreases |rows|
  {
    if |rows| > 0 {
      assert Column(rows) == [Cell(rows[0])] + Column(rows[1..]);
      DropNaAppend([Cell(rows[0])], Column(rows[1..]));
      SamplesAreHeartRates(rows[1..]);
      match Cell(rows[0])
      case Some(v) => DropNaCells(v);
      case None => DropNaCells(0.0);
    } else {
      assert Column(rows) == [];
    }
  }

  /** `extract_features_from_hr_series`: empty for fewer than two samples. */
  function ExtractFeatures(hr: seq<real>, stats: seq<real> -> seq<real>): (r: Option<seq<real>>)
    ensures r.None? <==> |hr| < 2
  {
    if |hr| < 2 then None else Some(stats(hr))
  }

  /** The samples the route would extract features from, if it gets that far. */
  function Samples(f: Frame): seq<real>
  {
    DropNa(f.heartRate)
  }

  /** The three checks of the route, in order: a `data` key, a `heart_rate`
      column, and at least two non-null samples. */
  predicate PassesChecks(p: Payload)
  {
    && p.Object?
    && "data" in p.body
    && BuildFrame(p.body["data"]).Ok?
    && BuildFrame(p.body["data"]).value.hasHeartRate
    && |Samples(BuildFrame(p.body["data"]).value)| >= 2
  }

  /** `predict()`. */
  function Predict(p: Payload, m: Model): (r: Response)
    ensures r.status == 200 || r.status == 400 || r.status == 500
    ensures r.status == 200 <==> r.reply.Prediction?
    ensures p.Undecodable? ==> r == Response(500, Error(p.reason))
    ensures p.Null? ==> r == Response(500, Error(NoneNotIterable))
    ensures p.Object? && "data" !in p.body ==> r == Response(400, Error(MissingData))
    ensures p.Object? && "data" in p.body && BuildFrame(p.body["data"]).Raised? ==>
      r == Response(500, Error(BuildFrame(p.body["data"]).message))
    ensures p.Object? && "data" in p.body && BuildFrame(p.body["data"]).Ok? ==>
      var f := BuildFrame(p.body["data"]).value;
      && (!f.hasHeartRate ==> r == Response(400, Error(MissingHeartRate)))
      && (f.hasHeartRate && |Samples(f)| < 2 ==> r == Response(400, Error(InsufficientData)))
    ensures r.status == 400 ==> !PassesChecks(p)
    ensures PassesChecks(p) ==>
      var feats := m.stats(Samples(BuildFrame(p.body["data"]).value));
      && (m.scale(feats).Raised? ==> r == Response(500, Error(m.scale(feats).message)))
      && (m.scale(feats).Ok? ==>
            match m.classify(m.scale(feats).value)
            case Ok(c) => r == Response(200, Prediction(c))
            case Raised(e) => r == Response(500, Error(e)))
  {
    match p
    case Undecodable(reason) => Response(500, Error(reason))
    case Null => Response(500, Error(NoneNotIterable))
    case Object(b) =>
      if "data" !in b then Response(400, Error(MissingData))
      else match BuildFrame(b["data"])
        case Raised(e) => Response(500, Error(e))
        case Ok(f) =>
          if !f.hasHeartRate then Response(400, Error(MissingHeartRate))
          else match ExtractFeatures(Samples(f), m.stats)
            case None => Response(400, Error(InsufficientData))
            case Some(feats) =>
              match m.scale(feats)
              case Raised(e) => Response(500, Error(e))
              case Ok(scaled) =>
                match m.classify(scaled)
                case Raised(e) => Response(500, Error(e))
                case Ok(c) => Response(200, Prediction(c))
  }

  /** A request that fails a check gets the same response whatever the model:
      the scaler and classifier are only reached by requests that pass all three. */
  lemma ChecksComeFirst(p: Payload, m1: Model, m2: Model)
    requires !PassesChecks(p)
    ensures Predict(p, m1) == Predict(p, m2)
    ensures Predict(p, m1).status != 200
  {
  }

  /** A 200 answer means every check passed and the classifier produced the prediction. */
  lemma SuccessMeansChecked(p: Payload, m: Model)
    requires Predict(p, m).status == 200
    ensures PassesChecks(p)
    ensures exists scaled :: m.classify(scaled) == Ok(Predict(p, m).reply.prediction)
  {
    var f := BuildFrame(p.body["data"]).value;
    var scaled := m.scale(m.stats(Samples(f))).value;
    assert m.classify(scaled) == Ok(Predict(p, m).reply.prediction);
  }

  /** An empty `data` array has no columns, so it fails the column check. */
  lemma EmptyDataHasNoColumn(b: Body, m: Model)
    requires "data" in b && b["data"] == Records([])
    ensures Predict(Object(b), m) == Response(400, Error(MissingHeartRate))
  {
    assert !SuppliesHeartRate([]);
  }

  /** Nulls do not count: a column of two records of which one is null is insufficient. */
  lemma NullsAreDropped(b: Body, m: Model, v: real)
    requires "data" in b
    requires b["data"] == Records([map["heart_rate" := Some(v)], map["heart_rate" := None]])
    ensures Predict(Object(b), m) == Response(400, Error(InsufficientData))
  {
    var rows := [map["heart_rate" := Some(v)], map["heart_rate" := None]];
    assert "heart_rate" in rows[0];
    var f := BuildFrame(b["data"]).value;
    assert f.heartRate == [Some(v), None];
    assert DropNa([None]) == [] by { assert DropNa([None]) == [] + DropNa([None][1..]); }
    assert Samples(f) == [v];
  }

  /** The JSON scalars the client can find in a response object. */
  datatype Json = JInt(i: int) | JStr(s: string)

  /** The object `jsonify` writes for a reply. */
  function ReplyJson(reply: Reply): (obj: map<string, Json>)
    ensures reply.Prediction? ==> obj.Keys == {"prediction"}
    ensures reply.Error? ==> obj.Keys == {"error"}
  {
    match reply
    case Prediction(p) => map["prediction" := JInt(p)]
    case Error(e) => map["error" := JStr(e)]
  }

  /** The request body `PredictionAPI.send` posts: `{"hr": [...], "timestamp": "..."}`. */
  function ClientBody(hr: seq<real>, isoDate: string): (b: Body)
    ensures b.Keys == {"hr", "timestamp"}
  {
    map["hr" := Numbers(hr), "timestamp" := Text(isoDate)]
  }

  /** The client's parse: the integer under `hungry`, whatever the status. */
  function ParseHungry(obj: map<string, Json>): (r: Option<int>)
    ensures r.Some? <==> "hungry" in obj && obj["hungry"].JInt?
    ensures r.Some? ==> obj["hungry"] == JInt(r.value)
  {
    if "hungry" in obj && obj["hungry"].JInt? then Some(obj["hungry"].i) else None
  }

  /** The client's body has no `data` key, so the route always rejects it with
      400, and no response of the route ever carries `hungry`, so the client can
      never parse one. */
  lemma ClientAndServerDisagree(hr: seq<real>, isoDate: string, p: Payload, m: Model)
    ensures Predict(Object(ClientBody(hr, isoDate)), m) == Response(400, Error(MissingData))
    ensures ParseHungry(ReplyJson(Predict(p, m).reply)).None?
  {
    assert "data" !in ClientBody(hr, isoDate);
  }
}

=== FILE: Resampler.dfy ===
/**
 * The resampler of main.py: keep the heart-rate records that fall in the
 * session window, sort them, then walk a 10-second grid from the start of the
 * window to its end, holding the most recent reading at each grid point and
 * labelling the point 0 before eating started and 1 from then on.
 * Timestamps are whole seconds; heart rates are reals.
 */
module Resampler {
  import opened Common

  const HeartRateType: string := "HKQuantityTypeIdentifierHeartRate"
  const UserName: string := "guk il kim"
  const GridStep: int := 10

  /** The script's fixed window, in seconds since midnight of 2025-04-01. */
  const StartTime: int := 11 * 3600 + 35 * 60
  const AfterEatingStart: int := 12 * 3600
  const EndTime: int := AfterEatingStart + 50 * 60

  /** One `<Record>` of the health export: its type, start date and value. */
  datatype HealthRecord = HealthRecord(kind: string, ts: int, value: real)

  /** A retained `(timestamp, value)` tuple. */
  type Reading = (int, real)

  /** One CSV data row, without the user name column. */
  datatype Row = Row(time: int, heartRate: real, rowLabel: int)

  /** A line of the CSV file. */
  datatype CsvLine = Header | DataLine(name: string, row: Row)

  predicate Kept(r: HealthRecord, start: int, end: int)
  {
    r.kind == HeartRateType && start <= r.ts <= end
  }

  /** The record loop: heart-rate records inside `[start, end]`, in document order. */
  function FilterHeartRate(records: seq<HealthRecord>, start: int, end: int): (r: seq<Reading>)
    ensures |r| <= |records|
    ensures forall x :: x in r ==> start <= x.0 <= end
    decreases |records|
  {
    if |records| == 0 then []
    else
      var last := records[|records| - 1];
      FilterHeartRate(records[..|records| - 1], start, end)
      + (if Kept(last, start, end) then [(last.ts, last.value)] else [])
  }

  /** A reading is retained exactly when some heart-rate record inside the window carries it. */
  lemma {:induction false} FilterKeepsExactly(records: seq<HealthRecord>, start: int, end: int, x: Reading)
    ensures x in FilterHeartRate(records, start, end) <==>
      exists i :: 0 <= i < |records| && Kept(records[i], start, end) && x == (records[i].ts, records[i].value)
    decreases |records|
  {
    if |records| > 0 {
      var init := records[..|records| - 1];
      var last := records[|records| - 1];
      FilterKeepsExactly(init, start, end, x);
      assert forall i :: 0 <= i < |init| ==> init[i] == records[i];
      assert FilterHeartRate(records, start, end)
        == FilterHeartRate(init, start, end) + (if Kept(last, start, end) then [(last.ts, last.value)] else []);
    }
  }

  /** Python's ordering of `(timestamp, value)` tuples. */
  predicate LexLe(a: Reading, b: Reading)
  {
    a.0 < b.0 || (a.0 == b.0 && a.1 <= b.1)
  }

  predicate SortedLex(s: seq<Reading>)
  {
    forall i, j :: 0 <= i < j < |s| ==> LexLe(s[i], s[j])
  }

  predicate SortedByTime(s: seq<Reading>)
  {
    forall i, j :: 0 <= i < j < |s| ==> s[i].0 <= s[j].0
  }

  lemma SortedLexByTime(s: seq<Reading>)
    requires SortedLex(s)
    ensures SortedByTime(s)
  {
  }

  /** `[h] + t` is sorted when `t` is and `h` is below all of it. */
  lemma ConsSorted(h: Reading, t: seq<Reading>)
    requires SortedLex(t)
    requires forall i :: 0 <= i < |t| ==> LexLe(h, t[i])
    ensures SortedLex([h] + t)
  {
    var s := [h] + t;
    forall i, j | 0 <= i < j < |s| ensures LexLe(s[i], s[j]) {
      assert s[j] == t[j - 1];
      if i > 0 { assert s[i] == t[i - 1]; }
    }
  }

  /** A lower bound of a sorted sequence and of `x` bounds anything holding exactly their elements. */
  lemma LowerBoundOfInsert(h: Reading, x: Reading, t: seq<Reading>, rest: seq<Reading>)
    requires SortedLex([h] + t) && LexLe(h, x)
    requires multiset(rest) == multiset(t) + multiset{x}
    ensures forall i :: 0 <= i < |rest| ==> LexLe(h, rest[i])
  {
    forall i | 0 <= i < |rest| ensures LexLe(h, rest[i]) {
      assert rest[i] in multiset(rest);
      if rest[i] != x {
        assert rest[i] in multiset(t);
        var j :| 0 <= j < |t| && t[j] == rest[i];
        assert ([h] + t)[j + 1] == t[j] && ([h] + t)[0] == h;
        assert LexLe(([h] + t)[0], ([h] + t)[j + 1]);
      }
    }
  }

  function Insert(x: Reading, s: seq<Reading>): (r: seq<Reading>)
    requires SortedLex(s)
    ensures SortedLex(r)
    ensures multiset(r) == multiset(s) + multiset{x}
    decreases |s|
  {
    if |s| == 0 then [x]
    else if LexLe(x, s[0]) then
      ConsSorted(x, s);
      [x] + s
    else
      assert s == [s[0]] + s[1..];
      var rest := Insert(x, s[1..]);
      LowerBoundOfInsert(s[0], x, s[1..], rest);
      ConsSorted(s[0], rest);
      [s[0]] + rest
  }

  /** `heart_data.sort()`: a sorted permutation of the readings. */
  function Sort(s: seq<Reading>): (r: seq<Reading>)
    ensures SortedLex(r)
    ensures multiset(r) == multiset(s)
    decreases |s|
  {
    if |s| == 0 then []
    else
      assert s == [s[0]] + s[1..];
      Insert(s[0], Sort(s[1..]))
  }

  /** The first element of a non-empty sorted sequence is below every element. */
  lemma SortedHeadIsLeast(s: seq<Reading>, y: Reading)
    requires SortedLex(s) && |s| > 0 && y in multiset(s)
    ensures LexLe(s[0], y)
  {
    var j :| 0 <= j < |s| && s[j] == y;
    if j > 0 { assert LexLe(s[0], s[j]); }
  }

  /** Any two sorted permutations of the same readings are equal, so the
      model's sort agrees with Python's whatever algorithm either uses. */
  lemma {:induction false} SortedPermutationUnique(a: seq<Reading>, b: seq<Reading>)
    requires SortedLex(a) && SortedLex(b) && multiset(a) == multiset(b)
    ensures a == b
    decreases |a|
  {
    if |a| > 0 {
      assert |b| == |multiset(b)| == |multiset(a)| == |a|;
      assert a[0] in multiset(b) && b[0] in multiset(a) by {
        assert a[0] in multiset(a) && b[0] in multiset(b);
      }
      SortedHeadIsLeast(a, b[0]);
      SortedHeadIsLeast(b, a[0]);
      assert a[0] == b[0];
      assert a == [a[0]] + a[1..] && b == [b[0]] + b[1..];
      assert multiset(a) == multiset{a[0]} + multiset(a[1..]);
      assert multiset(b) == multiset{b[0]} + multiset(b[1..]);
      assert multiset(a[1..]) == multiset(a) - multiset{a[0]};
      assert multiset(b[1..]) == multiset(b) - multiset{b[0]};
      SortedPermutationUnique(a[1..], b[1..]);
    }
  }

  /** Index of the last reading (in sequence order) at or before `t`, or -1 if there is none. */
  function LastAtOrBefore(data: seq<Reading>, t: int): (k: int)
    ensures -1 <= k < |data|
    ensures k >= 0 ==> data[k].0 <= t
    ensures forall j :: k < j < |data| ==> data[j].0 > t
    decreases |data|
  {
    if |data| == 0 then -1
    else if data[|data| - 1].0 <= t then |data| - 1
    else LastAtOrBefore(data[..|data| - 1], t)
  }

  /** A grid point has a held value exactly when some reading is at or before it. */
  lemma HeldIffSomeReading(data: seq<Reading>, t: int)
    ensures LastAtOrBefore(data, t) >= 0 <==> exists j :: 0 <= j < |data| && data[j].0 <= t
  {
  }

  /** Once some reading is at or before `t`, one is at or before every later point. */
  lemma HeldStaysHeld(data: seq<Reading>, t: int, t': int)
    requires t <= t' && LastAtOrBefore(data, t) >= 0
    ensures LastAtOrBefore(data, t') >= 0
  {
    var k := LastAtOrBefore(data, t);
    assert data[k].0 <= t';
  }

  /** On sorted readings the held reading is the greatest at or before `t` in
      tuple order: the latest timestamp, and the largest value among ties. */
  lemma HeldIsTupleMax(data: seq<Reading>, t: int)
    requires SortedLex(data) && LastAtOrBefore(data, t) >= 0
    ensures forall j :: 0 <= j < |data| && data[j].0 <= t ==> LexLe(data[j], data[LastAtOrBefore(data, t)])
  {
  }

  /** `label = 0 if current_time < after_eating_start else 1`. */
  function Label(t: int, after: int): (l: int)
    ensures l == 0 || l == 1
    ensures l == 0 <==> t < after
  {
    if t < after then 0 else 1
  }

  /** The row a grid point `t` yields when some reading is at or before it. */
  predicate IsRowAt(data: seq<Reading>, after: int, row: Row)
  {
    && LastAtOrBefore(data, row.time) >= 0
    && row.heartRate == data[LastAtOrBefore(data, row.time)].1
    && row.rowLabel == Label(row.time, after)
  }

  /** `g` is `t + 10k` for some integer k. */
  predicate OnGrid(g: int, t: int)
  {
    (g - t) % GridStep == 0
  }

  lemma OnGridStep(g: int, t: int)
    requires OnGrid(g, t + GridStep)
    ensures OnGrid(g, t)
  {
    assert g - t == (g - (t + GridStep)) + GridStep;
  }

  lemma OnGridNext(g: int, t: int)
    requires OnGrid(g, t) && g != t
    ensures OnGrid(g, t + GridStep)
  {
    assert g - t == (g - (t + GridStep)) + GridStep;
  }

  /** Reference definition of the output: the rows of the grid points
      `t, t + 10, ...` up to `end`, each holding the last reading at or before it. */
  function GridRows(data: seq<Reading>, t: int, after: int, end: int): seq<Row>
    decreases end - t
  {
    if t > end then []
    else
      var k := LastAtOrBefore(data, t);
      (if k >= 0 then [Row(t, data[k].1, Label(t, after))] else [])
      + GridRows(data, t + GridStep, after, end)
  }

  /** Row times lie on the grid from `t` to `end`. */
  predicate TimesOnGrid(rows: seq<Row>, t: int, end: int)
  {
    forall i :: 0 <= i < |rows| ==> t <= rows[i].time <= end && OnGrid(rows[i].time, t)
  }

  predicate TimesIncreasing(rows: seq<Row>)
  {
    forall i, j :: 0 <= i < j < |rows| ==> rows[i].time < rows[j].time
  }

  /** Row times are grid points `t + 10k` up to `end`. */
  lemma {:induction false} GridRowsOnGrid(data: seq<Reading>, t: int, after: int, end: int)
    ensures TimesOnGrid(GridRows(data, t, after, end), t, end)
    decreases end - t
  {
    if t <= end {
      var k := LastAtOrBefore(data, t);
      var here := if k >= 0 then [Row(t, data[k].1, Label(t, after))] else [];
      var rest := GridRows(data, t + GridStep, after, end);
      var rows := here + rest;
      assert GridRows(data, t, after, end) == rows;
      GridRowsOnGrid(data, t + GridStep, after, end);
      forall i | 0 <= i < |rows| ensures t <= rows[i].time <= end && OnGrid(rows[i].time, t) {
        if i >= |here| {
          assert rows[i] == rest[i - |here|];
          OnGridStep(rows[i].time, t);
        }
      }
    }
  }

  /** Row times are strictly increasing. */
  lemma {:induction false} GridRowsIncreasing(data: seq<Reading>, t: int, after: int, end: int)
    ensures TimesIncreasing(GridRows(data, t, after, end))
    decreases end - t
  {
    if t <= end {
      var k := LastAtOrBefore(data, t);
      var rest := GridRows(data, t + GridStep, after, end);
      GridRowsIncreasing(data, t + GridStep, after, end);
      if k >= 0 {
        var r0 := Row(t, data[k].1, Label(t, after));
        assert GridRows(data, t, after, end) == [r0] + rest;
        GridRowsOnGrid(data, t + GridStep, after, end);
        assert forall j :: 0 <= j < |rest| ==> r0.time < rest[j].time;
        ConsIncreasing(r0, rest);
      } else {
        assert GridRows(data, t, after, end) == rest;
      }
    }
  }

  lemma ConsIncreasing(r0: Row, rest: seq<Row>)
    requires TimesIncreasing(rest)
    requires forall j :: 0 <= j < |rest| ==> r0.time < rest[j].time
    ensures TimesIncreasing([r0] + rest)
  {
    var rows := [r0] + rest;
    forall i, j | 0 <= i < j < |rows| ensures rows[i].time < rows[j].time {
      assert rows[j] == rest[j - 1];
      if i > 0 { assert rows[i] == rest[i - 1]; }
    }
  }

  /** Every row holds the last reading at or before its time, labelled by its time. */
  lemma {:induction false} GridRowsHeld(data: seq<Reading>, t: int, after: int, end: int)
    ensures forall i :: 0 <= i < |GridRows(data, t, after, end)| ==> IsRowAt(data, after, GridRows(data, t, after, end)[i])
    decreases end - t
  {
    if t <= end {
      var k := LastAtOrBefore(data, t);
      var here := if k >= 0 then [Row(t, data[k].1, Label(t, after))] else [];
      var rest := GridRows(data, t + GridStep, after, end);
      var rows := here + rest;
      assert GridRows(data, t, after, end) == rows;
      GridRowsHeld(data, t + GridStep, after, end);
      forall i | 0 <= i < |rows| ensures IsRowAt(data, after, rows[i]) {
        if i >= |here| { assert rows[i] == rest[i - |here|]; }
      }
    }
  }

  /** Pointwise meaning of the output: every grid point with a reading at or
      before it yields exactly its row, and no other grid point yields one. */
  lemma {:induction false} GridRowsPointwise(data: seq<Reading>, t: int, after: int, end: int, g: int)
    requires t <= g <= end && OnGrid(g, t)
    ensures LastAtOrBefore(data, g) >= 0 ==>
      Row(g, data[LastAtOrBefore(data, g)].1, Label(g, after)) in GridRows(data, t, after, end)
    ensures LastAtOrBefore(data, g) < 0 ==>
      forall i :: 0 <= i < |GridRows(data, t, after, end)| ==> GridRows(data, t, after, end)[i].time != g
    decreases end - t
  {
    var rows := GridRows(data, t, after, end);
    var k := LastAtOrBefore(data, t);
    var here := if k >= 0 then [Row(t, data[k].1, Label(t, after))] else [];
    var rest := GridRows(data, t + GridStep, after, end);
    assert rows == here + rest;
    if g != t {
      OnGridNext(g, t);
      assert g >= t + GridStep;
      GridRowsPointwise(data, t + GridStep, after, end, g);
      if LastAtOrBefore(data, g) < 0 {
        forall i | 0 <= i < |rows| ensures rows[i].time != g {
          if i >= |here| { assert rows[i] == rest[i - |here|]; }
        }
      }
    } else if LastAtOrBefore(data, g) < 0 {
      GridRowsOnGrid(data, t + GridStep, after, end);
      assert TimesOnGrid(rest, t + GridStep, end);
      assert rows == rest;
    }
  }

  /** Once rows start they continue to the end of the window with no gap. */
  lemma NoGaps(data: seq<Reading>, start: int, after: int, end: int, g: int)
    requires start <= g && g + GridStep <= end && OnGrid(g, start)
    requires LastAtOrBefore(data, g) >= 0
    ensures LastAtOrBefore(data, g + GridStep) >= 0
    ensures Row(g + GridStep, data[LastAtOrBefore(data, g + GridStep)].1, Label(g + GridStep, after))
            in GridRows(data, start, after, end)
  {
    HeldStaysHeld(data, g, g + GridStep);
    assert OnGrid(g + GridStep, start) by {
      assert g + GridStep - start == (g - start) + GridStep;
    }
    GridRowsPointwise(data, start, after, end, g + GridStep);
  }

  /** Last grid point of a non-empty window. */
  function LastGridPoint(start: int, end: int): (g: int)
    requires start <= end
    ensures start <= g <= end < g + GridStep && OnGrid(g, start)
  {
    start + GridStep * ((end - start) / GridStep)
  }

  /** The grid loop of main.py: a two-pointer walk over sorted readings.
      `consumed` is the final value of `data_index`. */
  method Resample(data: seq<Reading>, start: int, after: int, end: int)
    returns (rows: seq<Row>, consumed: nat)
    requires SortedByTime(data)
    ensures rows == GridRows(data, start, after, end)
    ensures consumed <= |data|
    ensures start > end ==> consumed == 0
    ensures start <= end ==> forall j :: 0 <= j < consumed ==> data[j].0 <= LastGridPoint(start, end)
    ensures start <= end ==> forall j :: consumed <= j < |data| ==> data[j].0 > LastGridPoint(start, end)
  {
    rows := [];
    var t := start;
    var lastKnown: Option<real> := None;
    var i := 0;
    while t <= end
      invariant 0 <= i <= |data| && start <= t && OnGrid(t, start)
      invariant t != start ==> t - GridStep <= end
      invariant forall j :: 0 <= j < i ==> data[j].0 <= t - GridStep
      invariant t != start ==> forall j :: i <= j < |data| ==> data[j].0 > t - GridStep
      invariant t == start ==> i == 0
      invariant lastKnown == if i == 0 then None else Some(data[i - 1].1)
      invariant rows + GridRows(data, t, after, end) == GridRows(data, start, after, end)
      decreases end - t
    {
      i, lastKnown := CatchUp(data, t, i, lastKnown);
      var here := if lastKnown.Some? then [Row(t, lastKnown.value, Label(t, after))] else [];
      CatchUpIsHeld(data, start, t, after, end, i, rows, here);
      rows := rows + here;
      OnGridAdvance(t, start);
      t := t + GridStep;
    }
    consumed := i;
    if start <= end {
      LastGridPointUnique(start, end, t - GridStep);
    }
  }

  /** The inner loop of main.py: consume every reading at or before `t`,
      remembering the value of the last one. */
  method CatchUp(data: seq<Reading>, t: int, i0: nat, last0: Option<real>) returns (i: nat, lastKnown: Option<real>)
    requires i0 <= |data|
    requires forall j :: 0 <= j < i0 ==> data[j].0 <= t
    requires last0 == if i0 == 0 then None else Some(data[i0 - 1].1)
    ensures i0 <= i <= |data|
    ensures forall j :: 0 <= j < i ==> data[j].0 <= t
    ensures i < |data| ==> data[i].0 > t
    ensures lastKnown == if i == 0 then None else Some(data[i - 1].1)
  {
    i, lastKnown := i0, last0;
    while i < |data| && data[i].0 <= t
      invariant i0 <= i <= |data|
      invariant forall j :: 0 <= j < i ==> data[j].0 <= t
      invariant lastKnown == if i == 0 then None else Some(data[i - 1].1)
      decreases |data| - i
    {
      lastKnown := Some(data[i].1);
      i := i + 1;
    }
  }

  /** After the inner loop stops at `i`, the row the grid point `t` contributes
      is the one the reference definition gives, so the rows built so far stay a
      prefix of the reference output. */
  lemma CatchUpIsHeld(data: seq<Reading>, start: int, t: int, after: int, end: int, i: int,
                      rows: seq<Row>, here: seq<Row>)
    requires SortedByTime(data) && 0 <= i <= |data| && t <= end
    requires forall j :: 0 <= j < i ==> data[j].0 <= t
    requires i < |data| ==> data[i].0 > t
    requires here == if i == 0 then [] else [Row(t, data[i - 1].1, Label(t, after))]
    requires rows + GridRows(data, t, after, end) == GridRows(data, start, after, end)
    ensures forall j :: i <= j < |data| ==> data[j].0 > t
    ensures (rows + here) + GridRows(data, t + GridStep, after, end) == GridRows(data, start, after, end)
  {
    SortedSuffixAbove(data, t, i);
    LastIsBoundary(data, t, i);
    var rest := GridRows(data, t + GridStep, after, end);
    assert GridRows(data, t, after, end) == here + rest;
    PrefixGrows(rows, here, rest, GridRows(data, start, after, end));
  }

  lemma PrefixGrows<T>(done: seq<T>, here: seq<T>, rest: seq<T>, all: seq<T>)
    requires done + (here + rest) == all
    ensures (done + here) + rest == all
  {
    assert done + (here + rest) == (done + here) + rest;
  }

  lemma OnGridAdvance(t: int, start: int)
    requires OnGrid(t, start)
    ensures OnGrid(t + GridStep, start)
  {
    assert t + GridStep - start == (t - start) + GridStep;
  }

  /** The last grid point is the only grid point in `(end - 10, end]`. */
  lemma LastGridPointUnique(start: int, end: int, g: int)
    requires start <= g <= end < g + GridStep && OnGrid(g, start)
    ensures LastGridPoint(start, end) == g
  {
    var l := LastGridPoint(start, end);
    var a := (g - start) / GridStep;
    var b := (l - start) / GridStep;
    assert g == start + GridStep * a && l == start + GridStep * b;
    assert -GridStep < g - l < GridStep;
    assert a == b;
  }

  /** In a time-sorted sequence, once a reading is after `t` so is everything behind it. */
  lemma SortedSuffixAbove(data: seq<Reading>, t: int, i: int)
    requires SortedByTime(data) && 0 <= i <= |data|
    requires i < |data| ==> data[i].0 > t
    ensures forall j :: i <= j < |data| ==> data[j].0 > t
  {
    forall j | i <= j < |data| ensures data[j].0 > t {
      if j > i { assert data[i].0 <= data[j].0; }
    }
  }

  /** On readings sorted by time, the boundary between "at or before t" and
      "after t" is where the last reading at or before t sits. */
  lemma {:induction false} LastIsBoundary(data: seq<Reading>, t: int, i: int)
    requires 0 <= i <= |data|
    requires forall j :: 0 <= j < i ==> data[j].0 <= t
    requires forall j :: i <= j < |data| ==> data[j].0 > t
    ensures LastAtOrBefore(data, t) == i - 1
    decreases |data|
  {
    if |data| > 0 && i < |data| {
      var init := data[..|data| - 1];
      assert forall j :: 0 <= j < |init| ==> init[j] == data[j];
      LastIsBoundary(init, t, i);
    }
  }

  /** The whole script: filter, sort, resample, and the CSV table with its
      header line; `reported` is the count printed at the end. */
  method Export(records: seq<HealthRecord>, start: int, after: int, end: int)
    returns (lines: seq<CsvLine>, reported: int)
    ensures var data := Sort(FilterHeartRate(records, start, end));
      var rows := GridRows(data, start, after, end);
      && |lines| == |rows| + 1
      && lines[0] == Header
      && (forall i :: 0 <= i < |rows| ==> lines[i + 1] == DataLine(UserName, rows[i]))
    ensures reported == |lines| - 1 && reported >= 0
  {
    var data := Sort(FilterHeartRate(records, start, end));
    SortedLexByTime(data);
    var rows, _ := Resample(data, start, after, end);
    lines := [Header] + seq(|rows|, i requires 0 <= i < |rows| => DataLine(UserName, rows[i]));
    reported := |lines| - 1;
  }

  /** End-to-end meaning, independent of the order of the export: every row's
      heart rate comes from a retained reading at or before the row's time, and
      that reading is the greatest such one in tuple order. */
  lemma ExportHoldsTupleMax(records: seq<HealthRecord>, start: int, after: int, end: int, i: int)
    requires var rows := GridRows(Sort(FilterHeartRate(records, start, end)), start, after, end);
      0 <= i < |rows|
    ensures var kept := FilterHeartRate(records, start, end);
      var row := GridRows(Sort(kept), start, after, end)[i];
      exists x :: x in kept && x.0 <= row.time && x.1 == row.heartRate &&
        forall y :: y in kept && y.0 <= row.time ==> LexLe(y, x)
  {
    var kept := FilterHeartRate(records, start, end);
    var data := Sort(kept);
    var row := GridRows(data, start, after, end)[i];
    GridRowsHeld(data, start, after, end);
    var k := LastAtOrBefore(data, row.time);
    assert IsRowAt(data, after, row);
    HeldIsTupleMax(data, row.time);
    var x := data[k];
    assert x in multiset(data);
    assert x in kept;
    forall y | y in kept && y.0 <= row.time ensures LexLe(y, x) {
      assert y in multiset(kept);
      var j :| 0 <= j < |data| && data[j] == y;
    }
  }

  /** The grid from `t` to `end` has `(end - t) / 10 + 1` points, so at most that many rows. */
  lemma {:induction false} GridRowsAtMost(data: seq<Reading>, t: int, after: int, end: int)
    ensures t > end ==> GridRows(data, t, after, end) == []
    ensures t <= end ==> |GridRows(data, t, after, end)| <= (end - t) / GridStep + 1
    decreases end - t
  {
    if t <= end {
      GridRowsAtMost(data, t + GridStep, after, end);
      if t + GridStep <= end {
        assert (end - (t + GridStep)) / GridStep == (end - t) / GridStep - 1;
      }
    }
  }

  /** The script's own window: eating starts on a grid point, so the label
      switches exactly between two rows; the end time is itself the last grid
      point, so the final row is at 12:50:00; and there are at most 451 rows. */
  lemma ScriptWindow(data: seq<Reading>)
    ensures OnGrid(AfterEatingStart, StartTime)
    ensures LastGridPoint(StartTime, EndTime) == EndTime
    ensures |GridRows(data, StartTime, AfterEatingStart, EndTime)| <= 451
  {
    GridRowsAtMost(data, StartTime, AfterEatingStart, EndTime);
  }
}

=== FILE: Scoring.dfy ===
/**
 * The running accuracy score kept by every variant of the phone screen:
 * an attempt counter, a counter of answers that agreed with the model,
 * and the percentage recomputed from them on every answer.
 * Swift's `Double` is modelled as an exact `real`.
 */
module Scoring {

  datatype Score = Score(total: nat, correct: nat, accuracy: real)

  /** Counters and accuracy as they are before the first answer. */
  const Zero: Score := Score(0, 0, 0.0)

  /** One point of the accuracy chart: the attempt number and the percentage after it. */
  datatype AccuracyEntry = AccuracyEntry(attempt: int, percentage: real)

  /** `Double(correct) / Double(total) * 100`, over the reals. */
  function Accuracy(correct: nat, total: nat): (a: real)
    requires 0 < total
    ensures correct <= total ==> 0.0 <= a <= 100.0
    ensures a == 100.0 <==> correct == total
    ensures a == 0.0 <==> correct == 0
  {
    (correct as real) / (total as real) * 100.0
  }

  /** The score invariant: never more agreements than attempts, and the
      stored accuracy is the one the counters determine (0 before any answer). */
  predicate Consistent(sc: Score)
  {
    && sc.correct <= sc.total
    && sc.accuracy == (if sc.total == 0 then 0.0 else Accuracy(sc.correct, sc.total))
  }

  /** Records one answer: one more attempt, one more agreement when `agreed`,
      and the accuracy recomputed from the new counters. */
  function Tally(sc: Score, agreed: bool): (r: Score)
    ensures r.total == sc.total + 1
    ensures agreed ==> r.correct == sc.correct + 1
    ensures !agreed ==> r.correct == sc.correct
    ensures sc.correct <= sc.total ==> Consistent(r)
    ensures sc.correct <= sc.total ==> 0.0 <= r.accuracy <= 100.0
  {
    var correct := if agreed then sc.correct + 1 else sc.correct;
    Score(sc.total + 1, correct, Accuracy(correct, sc.total + 1))
  }

  /** Attempt numbers of a history run 1, 2, ..., n in order. */
  predicate AttemptsNumbered(h: seq<AccuracyEntry>)
  {
    forall i :: 0 <= i < |h| ==> h[i].attempt == i + 1
  }

  /** Every charted percentage is a percentage. */
  predicate PercentagesInRange(h: seq<AccuracyEntry>)
  {
    forall i :: 0 <= i < |h| ==> 0.0 <= h[i].percentage <= 100.0
  }

  /** The history invariant: one entry per attempt, numbered 1..n, with
      percentages in range and the last one equal to the current accuracy. */
  predicate HistoryMatches(h: seq<AccuracyEntry>, sc: Score)
  {
    && |h| == sc.total
    && AttemptsNumbered(h)
    && PercentagesInRange(h)
    && (|h| > 0 ==> h[|h| - 1].percentage == sc.accuracy)
  }

  /** The step shared by both watch-paired screens: tally the answer and chart the new accuracy. */
  lemma TallyExtendsHistory(h: seq<AccuracyEntry>, sc: Score, agreed: bool)
    requires Consistent(sc) && HistoryMatches(h, sc)
    ensures Consistent(Tally(sc, agreed))
    ensures HistoryMatches(h + [AccuracyEntry(Tally(sc, agreed).total, Tally(sc, agreed).accuracy)], Tally(sc, agreed))
  {
    var r := Tally(sc, agreed);
    var h' := h + [AccuracyEntry(r.total, r.accuracy)];
    forall i | 0 <= i < |h'|
      ensures h'[i].attempt == i + 1 && 0.0 <= h'[i].percentage <= 100.0
    {
      if i < |h| { assert h'[i] == h[i]; }
    }
  }
}

=== FILE: StandaloneFlow.dfy ===
/**
 * The phone-only demo screen of Hunger-ios/Hunger/Hunger/ContentView.swift.
 * There is no watch and no server: the prediction is `Int.random(in: 0...1)`,
 * here a caller-chosen value in {0, 1}; 1 means "not hungry" and 0 "hungry".
 * An answer agrees with the model when "yes" goes with 1 and "no" with 0.
 * There is no accuracy history in this variant. The CSV log is not modelled.
 */
module StandaloneFlow {
  import opened Common
  import opened Scoring

  const HealthyFoods: seq<string> := [
    "Avocado Toast 🥑",
    "Greek Yogurt with Berries 🍓",
    "Grilled Chicken Salad 🥗",
    "Hummus and Veggie Wrap 🌯",
    "Oatmeal with Nuts and Banana 🍌",
    "Tofu Stir Fry 🍜",
    "Fruit Smoothie 🥤"
  ]

  const LetsWalkMsg: string := "✅ Let's go take a walk!"
  const NotedMsg: string := "📝 Noted!"
  const TakeWalkMsg: string := "🚶 Take a walk!"
  const TryPrefix: string := "🍎 Try this: "

  datatype State = State(
    modelOutput: Option<int>,
    showPrompt: bool,
    showFollowUp: bool,
    followUpMessage: string,
    score: Score)

  /** The declared initial values. */
  const Initial: State := State(None, true, false, "", Zero)

  lemma InitialState()
    ensures Initial.modelOutput.None? && Initial.showPrompt && !Initial.showFollowUp
    ensures Initial.score.total == 0 && Initial.score.correct == 0 && Initial.score.accuracy == 0.0
  {
  }

  /** `isCorrect`. */
  predicate IsCorrect(pred: int, yes: bool)
  {
    (pred == 1 && yes) || (pred == 0 && !yes)
  }

  /** A value `Int.random(in: 0...1)` can return. */
  predicate IsCoin(v: int)
  {
    v == 0 || v == 1
  }

  /** The delayed closure on the loading text: a random prediction arrives. */
  function MockPrediction(s: State, v: int): (r: State)
    requires IsCoin(v)
    ensures r.modelOutput == Some(v)
    ensures r.score == s.score && r.showPrompt == s.showPrompt && r.showFollowUp == s.showFollowUp
    ensures r.followUpMessage == s.followUpMessage
  {
    s.(modelOutput := Some(v))
  }

  /** `handleResponse(userSaidYes:)`, without the CSV append. */
  function HandleResponse(s: State, yes: bool, pick: nat): (r: State)
    requires pick < |HealthyFoods|
    ensures s.modelOutput.None? ==> r == s
    ensures s.modelOutput.Some? ==>
      var pred := s.modelOutput.value;
      && r.score.total == s.score.total + 1
      && (r.score.correct == s.score.correct + 1 <==> IsCorrect(pred, yes))
      && (r.score.correct == s.score.correct + 1 || r.score.correct == s.score.correct)
      && (s.score.correct <= s.score.total ==> r.score.correct <= r.score.total)
      && r.score.accuracy == Accuracy(r.score.correct, r.score.total)
      && (pred != 1 && !yes <==> r.followUpMessage == TryPrefix + HealthyFoods[pick])
      && (pred != 1 && !yes <==> exists f :: f in HealthyFoods && r.followUpMessage == TryPrefix + f)
      && !r.showPrompt && r.showFollowUp && r.modelOutput == s.modelOutput
  {
    match s.modelOutput
    case None => s
    case Some(pred) =>
      var msg :=
        if pred == 1 then (if yes then LetsWalkMsg else NotedMsg)
        else (if yes then TakeWalkMsg else TryPrefix + HealthyFoods[pick]);
      s.(score := Tally(s.score, IsCorrect(pred, yes)),
         followUpMessage := msg,
         showPrompt := false,
         showFollowUp := true)
  }

  /** `resetToMain()`, run by Okay: a fresh random prediction, the prompt again,
      the counters kept. */
  function ResetToMain(s: State, v: int): (r: State)
    requires IsCoin(v)
    ensures r.modelOutput == Some(v) && IsCoin(r.modelOutput.value)
    ensures r.showPrompt && !r.showFollowUp && r.followUpMessage == ""
    ensures r.score == s.score
  {
    s.(modelOutput := Some(v), showPrompt := true, showFollowUp := false, followUpMessage := "")
  }

  datatype Event =
    | Loaded(value: int)
    | Answered(yes: bool, pick: nat)
    | Okay(value: int)

  predicate WellFormed(e: Event)
  {
    match e
    case Loaded(v) => IsCoin(v)
    case Answered(_, pick) => pick < |HealthyFoods|
    case Okay(v) => IsCoin(v)
  }

  /** The loading text (and its delayed closure) is on screen only while the
      prompt is up without a prediction; Yes/No only with a prediction; Okay
      only on the follow-up. */
  predicate Enabled(s: State, e: Event)
  {
    match e
    case Loaded(_) => s.showPrompt && s.modelOutput.None?
    case Answered(_, _) => s.showPrompt && s.modelOutput.Some?
    case Okay(_) => !s.showPrompt && s.showFollowUp
  }

  function Step(s: State, e: Event): (r: State)
    requires WellFormed(e)
    ensures !Enabled(s, e) ==> r == s
  {
    if !Enabled(s, e) then s
    else match e
      case Loaded(v) => MockPrediction(s, v)
      case Answered(yes, pick) => HandleResponse(s, yes, pick)
      case Okay(v) => ResetToMain(s, v)
  }

  function Run(s: State, es: seq<Event>): State
    requires forall i :: 0 <= i < |es| ==> WellFormed(es[i])
    decreases |es|
  {
    if |es| == 0 then s else Run(Step(s, es[0]), es[1..])
  }

  /** The screen shows exactly one of prompt and follow-up, a follow-up always
      belongs to a prediction, predictions are 0 or 1, and the score is consistent. */
  predicate Inv(s: State)
  {
    && Consistent(s.score)
    && (s.showPrompt <==> !s.showFollowUp)
    && (s.showFollowUp ==> s.modelOutput.Some?)
    && (s.modelOutput.Some? ==> IsCoin(s.modelOutput.value))
    && (s.showPrompt ==> s.followUpMessage == "")
  }

  lemma StepPreservesInv(s: State, e: Event)
    requires Inv(s) && WellFormed(e)
    ensures Inv(Step(s, e))
  {
  }

  /** The number of answers that take effect along a run, and how many of them agree. */
  function Answers(s: State, es: seq<Event>): (r: (nat, nat))
    requires forall i :: 0 <= i < |es| ==> WellFormed(es[i])
    decreases |es|
  {
    if |es| == 0 then (0, 0)
    else
      var rest := Answers(Step(s, es[0]), es[1..]);
      if es[0].Answered? && Enabled(s, es[0]) then
        (rest.0 + 1, rest.1 + (if IsCorrect(s.modelOutput.value, es[0].yes) then 1 else 0))
      else rest
  }

  /** Along any run the counters grow by exactly the answers given and the
      agreeing answers among them, and the invariant is kept. */
  lemma {:induction false} RunCounts(s: State, es: seq<Event>)
    requires Inv(s)
    requires forall i :: 0 <= i < |es| ==> WellFormed(es[i])
    ensures Inv(Run(s, es))
    ensures Run(s, es).score.total == s.score.total + Answers(s, es).0
    ensures Run(s, es).score.correct == s.score.correct + Answers(s, es).1
    decreases |es|
  {
    if |es| > 0 {
      StepPreservesInv(s, es[0]);
      RunCounts(Step(s, es[0]), es[1..]);
    }
  }

  /** From a screen with no answers yet (such as `Initial`), accuracy after
      N > 0 answers is (agreeing answers / N) * 100, and stays 0 without answers. */
  lemma AccuracyIsAgreementRate(s: State, es: seq<Event>)
    requires Inv(s) && s.score.total == 0
    requires forall i :: 0 <= i < |es| ==> WellFormed(es[i])
    ensures Answers(s, es).0 == 0 ==> Run(s, es).score.accuracy == 0.0
    ensures Answers(s, es).0 > 0 ==> Run(s, es).score.accuracy == Accuracy(Answers(s, es).1, Answers(s, es).0)
  {
    RunCounts(s, es);
    var sc := Run(s, es).score;
    var n := Answers(s, es);
    assert s.score.correct == 0;
    assert sc.total == n.0 && sc.correct == n.1;
    assert Consistent(sc);
  }

  lemma InitialInv()
    ensures Inv(Initial) && Initial.score == Zero
  {
  }

  /** Prediction 1 answered yes, then prediction 0 answered no: both agree, so accuracy is 100%. */
  lemma TwoAgreeingAnswers()
    ensures Run(Initial, [Loaded(1), Answered(true, 0), Okay(0), Answered(false, 0)]).score.accuracy == 100.0
  {
    var s1 := Step(Initial, Loaded(1));
    var s2 := Step(s1, Answered(true, 0));
    var s3 := Step(s2, Okay(0));
    var s4 := Step(s3, Answered(false, 0));
    assert s4.score == Score(2, 2, 100.0);
    assert Run(Initial, [Loaded(1), Answered(true, 0), Okay(0), Answered(false, 0)]) == Run(s4, []);
  }
}
